=== FILE: README.md ===
# TableReducer in Dafny

`TableReducer` shrinks the SQLite table `oa_trf_src` by dictionary encoding.
Every column except the configured pass-through columns (`impact`) gets a
lookup table `oa_trf_src_<col>_lkp`. That table holds one row
`(id, champ)` per distinct value of the column. The reducer then writes
`oa_trf_src_red`, a table with the source's columns. Pass-through columns
are copied into it. Every other column is replaced by the id of its value
in that column's lookup table. The source is read in batches of 2000 rows
with a `LIMIT/OFFSET` cursor, and each batch is inserted in one transaction.

This project models that pipeline over an in-memory store:

- `sql.dfy` (`Sql`) holds the store's values and rows, and the queries the
  reducer issues. These are `PRAGMA table_info` as a column list,
  `LIMIT/OFFSET` as `Page`, `SELECT DISTINCT` as `Distinct`, and the
  `WHERE champ = ?` lookup as `Resolve`. Under SQL `=`, NULL never matches.
- `encoding.dfy` (`Encoding`) holds the pure parts:
  - the lookup-table name template;
  - the column classification;
  - the checks `createMapperTable` makes;
  - the reduced schema;
  - the per-row value mapping, and its inverse, which decodes a reduced row
    back through the lookup tables.
- `batching.dfy` (`Batching`) holds the batches the cursor reads.
- `lookups.dfy` (`Lookups`) covers creating and filling the lookup tables as
  a whole, and what a filled table holds.
- `reducer.dfy` (`Reducer`) holds the class `TableReducer`. Its fields are
  `allCols`, `colsToReduce`, the store's lookup tables and the reduced table.
  Each stage is a method that updates those fields, and `Run` runs the
  stages in order.

A lookup table is a sequence of values. The value at index i has id i + 1,
as `AUTOINCREMENT` numbers the rows of a fresh table. A reduced cell is the
copied value, `Int(id)`, or `Null` when nothing matches. NULL source values
never match, so they become `Null`.

## Model

| member | source | states |
|---|---|---|
| Sql.Cell | TableReducer.js:199 | `row[col]` is the row's value for a column it holds; a column it lacks reads as `undefined`, bound as NULL |
| Sql.ColumnValues | TableReducer.js:80 | the column read by `SELECT DISTINCT` has one value per source row, row i's value at position i |
| Sql.Names | TableReducer.js:24 | `allCols` lists one name per `PRAGMA table_info` row, in declaration order |
| Sql.Page | TableReducer.js:157 | a `LIMIT/OFFSET` read returns the rows from the offset on: at most `limit` of them, none past the end, empty at or past the end |
| Sql.Distinct | TableReducer.js:80 | `SELECT DISTINCT` returns each value of the column exactly once, NULL included, and no other value |
| Sql.Resolve | TableReducer.js:204-206 | the `champ = ?` lookup finds an id exactly when the value is non-NULL and present; the id is in range, names an entry holding that value, and is the first such entry |
| Encoding.LookupName | TableReducer.js:47 | the lookup-table name is `oa_trf_src_`, then the column name, then `_lkp` |
| Encoding.LookupNameInjective | TableReducer.js:47 | the one name template used at creation (47), fill (85) and resolve (203) time gives distinct columns distinct lookup tables |
| Encoding.LookupNameIsNoStageTable | TableReducer.js:5-6 | no lookup table can take the name of the source table or of the reduced table |
| Encoding.ReducibleCols | TableReducer.js:26 | the filter never yields more columns than it is given |
| Encoding.ShippedClassification | TableReducer.js:9 | for any source columns, with the shipped `unmodifiedCols` a column is reduced exactly when it is not `impact`, and copied verbatim exactly when it is `impact` |
| Encoding.ShippedConfiguration | TableReducer.js:9 | an example: on the columns `id`, `impact`, `country`, the columns `id` and `country` are reduced, in that order, and `impact` is copied |
| Encoding.ReducibleColsMembers | TableReducer.js:26 | a column is reducible exactly when it is a source column not listed in `unmodifiedCols`; the filter adds no column |
| Encoding.PassThroughColsMembers | TableReducer.js:26 | a column is copied verbatim exactly when it is a source column listed in `unmodifiedCols` |
| Encoding.ClassificationPartition | TableReducer.js:24-26 | reducible and pass-through columns together are the source columns as a multiset: each lands in exactly one class |
| Encoding.ReducibleColsAppend | TableReducer.js:26 | the filter keeps source order: it distributes over concatenation |
| Encoding.DeclaredType | TableReducer.js:41 | the type of the first schema entry with the column's name, as `rows.find` returns; "" when no entry has that name; a non-empty result is the declared type of such an entry |
| Encoding.FirstUntyped | TableReducer.js:40-45 | passes exactly when every reducible column has a declared type; otherwise it names a reducible column without one |
| Encoding.FirstUntypedIsFirst | TableReducer.js:40-44 | the untyped column a failure names is the first one in `colsToReduce` order, since the first rejection settles the promise: every column before it has a type |
| Encoding.CheckMapperColumns | TableReducer.js:40-62 | `createMapperTable` fails with "no columns" exactly when nothing is reducible, fails naming an untyped reducible column, and otherwise passes |
| Encoding.ReducedSchema | TableReducer.js:123-129 | the reduced table's columns are exactly the schema entries whose name is in `allCols`, with their declared types |
| Encoding.ReducedSchemaKeepsEveryColumn | TableReducer.js:123-131 | when every source column is listed, the reduced schema is the source schema: same columns, same order, same types |
| Encoding.RewriteCell | TableReducer.js:196-207 | a pass-through cell is copied; a reducible cell becomes an id in range whose entry equals the source value, or NULL when the value is NULL or absent; a missing lookup table fails the cell |
| Encoding.RewriteRow | TableReducer.js:196-213 | a rewritten row has one value per column of `allCols` |
| Encoding.RewriteRowCells | TableReducer.js:196-212 | a row is rewritten exactly when every cell is, and then position i holds the rewrite of column i |
| Encoding.Emitted | TableReducer.js:211-223 | one source row inserts at most one reduced row |
| Encoding.RewriteRows | TableReducer.js:192-224 | a batch never inserts more rows than it read |
| Encoding.RewriteRowsAppend | TableReducer.js:192-224 | rewriting two runs of rows one after the other gives the concatenation of their rewrites, in order |
| Encoding.RewriteRowsSnoc | TableReducer.js:192-224 | one more source row adds its rewrite, if it has one, at the end |
| Encoding.RewriteRowsNoneSkipped | TableReducer.js:192-224 | when every row can be rewritten, none is skipped and reduced row i is the rewrite of source row i |
| Encoding.CellRoundTrip | TableReducer.js:196-207 | a cell whose lookup table exists is rewritten, and it decodes back to the source value exactly when it is copied, NULL, or present in the lookup |
| Encoding.RowRoundTrip | TableReducer.js:192-213 | a resolvable row is rewritten, and decoding it gives back the source row's value for every listed column |
| Encoding.RowsRoundTrip | TableReducer.js:192-224 | resolvable rows are all inserted, one reduced row each, and each decodes back to its source row |
| Batching.BatchesFrom | TableReducer.js:154-173 | the cursor reads no batch exactly when the offset is at or past the end of the source |
| Batching.Batches | TableReducer.js:148-173 | a full pass reads no batch exactly when the source is empty, and its batches, laid end to end without overlap, are every source row once, in source order |
| Batching.BatchesFromBounded | TableReducer.js:157-166 | every batch the cursor processes holds at least one row and at most one batch size of them |
| Batching.PageAfterPrefix | TableReducer.js:172 | the rows before an offset followed by the batch read there are the rows up to the batch's end |
| Batching.BatchesFromCover | TableReducer.js:154-173 | the batches from an offset on, laid end to end, are the source rows from that offset on |
| Batching.BatchesFromAt | TableReducer.js:172 | batch number k is read at offset k times the batch size |
| Batching.BatchesFromFull | TableReducer.js:157 | every batch but the last is full |
| Batching.FiveRowsInPairs | TableReducer.js:148-173 | five rows in batches of two are read as batches of 2, 2 and 1 rows that cover the five |
| Lookups.CreateLookupTables | TableReducer.js:40-57 | creation keeps every existing table unchanged and leaves a lookup table for every reducible column |
| Lookups.CreateLookupTablesContents | TableReducer.js:47-49 | creation adds no table beyond the columns' lookup tables, and each table it adds is empty and has its column's declared type |
| Lookups.FillLookup | TableReducer.js:80-99 | filling one column's lookup table adds or removes no table |
| Lookups.FillLookups | TableReducer.js:244-246 | filling every reducible column in turn adds or removes no table |
| Lookups.FillLookupsKeepsOthers | TableReducer.js:85-92 | filling leaves alone every table not named after one of the filled columns |
| Lookups.FillLookupsContents | TableReducer.js:244-246 | after the fill loop, each column's lookup table is its previous contents followed by that column's distinct values, once |
| Lookups.FreshLookupsFilled | TableReducer.js:243-246 | on a store without the lookup tables, creation then the fill loop leaves every reducible column's table typed like the column and holding exactly its distinct values |
| Lookups.FreshLookupContents | TableReducer.js:80-99 | a fresh lookup table holds each distinct value once, NULL included, and nothing else; each non-NULL source value resolves to its own entry; NULL never resolves |
| Lookups.RefillDuplicates | TableReducer.js:49 | filling a lookup table that already holds its column's distinct values (`IF NOT EXISTS` kept it from an earlier run) leaves those values twice over: the table then has duplicates, yet each value still resolves to the id it had |
| Lookups.ResolvePrefix | TableReducer.js:204 | a value present in the earlier rows of a lookup table resolves there, whatever follows |
| Lookups.FilledLookupsResolveEveryRow | TableReducer.js:204-206 | once every lookup table holds its column's distinct values, every source row is resolvable |
| Reducer.Appended | TableReducer.js:213 | inserting rows into the reduced table keeps its columns and adds exactly that many rows; with no reduced table nothing is inserted |
| Reducer.ReducibleColsNoDuplicates | TableReducer.js:24-26 | distinct source column names stay distinct once filtered |
| Reducer.TableReducer.constructor | TableReducer.js:3-15 | a reducer over a given store, with empty column lists |
| Reducer.TableReducer.GetCols | TableReducer.js:17-30 | `allCols` becomes the schema's column names, and `colsToReduce` becomes those not listed in `unmodifiedCols` |
| Reducer.TableReducer.CreateMapperTable | TableReducer.js:32-75 | the outcome is `CheckMapperColumns`; on failure the store is unchanged; on success each reducible column's table is created if it does not exist yet |
| Reducer.TableReducer.FillMapperTable | TableReducer.js:78-113 | a column the source lacks, or a missing lookup table, fails and changes nothing; otherwise the column's distinct values are appended to its table |
| Reducer.TableReducer.FillMapperTables | TableReducer.js:244-246 | when every lookup table exists, the loop's result is `FillLookups` of the store it started from |
| Reducer.TableReducer.CreateReducerTable | TableReducer.js:115-141 | an empty column list or an existing reduced table fails and changes nothing; otherwise the reduced table is created empty with `ReducedSchema` |
| Reducer.TableReducer.InsertBatch | TableReducer.js:183-236 | a committed batch appends the rewrites of its rows, in order; a batch whose COMMIT fails is rolled back |
| Reducer.TableReducer.NextBatch | TableReducer.js:156-169 | one pass of the cursor loop: a page is read exactly when the offset is before the end, and it is then the cursor's next batch; a committed batch extends the rows appended before the offset up to the batch's end; anything else changes nothing |
| Reducer.TableReducer.FillReducedTable | TableReducer.js:147-176 | terminates; on success every batch committed and every source row's rewrite is appended in order; on a COMMIT failure at batch k, earlier batches committed and only the rows before offset k times 2000 were appended |
| Reducer.TableReducer.BuildLookups | TableReducer.js:243-246 | the lookup stage fails exactly as `CheckMapperColumns` says, changing nothing; otherwise every lookup table is created if missing and then filled from its column |
| Reducer.TableReducer.BuildReducedTable | TableReducer.js:247-248 | an empty column list or an existing reduced table fails with the reduced table untouched; otherwise the table is created, and then either every COMMIT succeeds and it receives every row's rewrite, or the COMMIT of batch k fails, the earlier batches committed and the table holds the rewrites of the rows before offset k times 2000 |
| Reducer.TableReducer.Run | TableReducer.js:238-254 | with nothing to reduce, the run fails and changes no table; on a fresh store where every COMMIT succeeds, it completes: the lookup store is the old one with each column's table created and filled, so no other table changes, each lookup holds its column's distinct values, and the reduced table has the source schema and holds exactly every source row's rewrite, in order, each decoding back to its source row |
| Reducer.FreshReducedSchema | TableReducer.js:123-131 | when `createMapperTable` would pass, the reduced schema is the whole source schema and is not empty |
| Reducer.FreshRunCompletes | TableReducer.js:238-254 | the stages composed on a fresh store give the completed state that `Run` promises: filled lookups, and a reduced table with the source schema holding every source row's rewrite in order, each decoding back |
| Reducer.CompletedRestoresRows | TableReducer.js:192-213 | after a completed run, a source row holding exactly the schema's columns, as `SELECT *` returns it, decodes back to itself |

## Left out

- The sqlite3 connection, `PRAGMA` and SQL text, and `prepare`/`finalize` are not modelled. The store is a set of in-memory sequences and maps.
- Promises and async scheduling are not modelled. The stages run sequentially. The race in `insertBatch`, where per-row inserts can be queued after the `COMMIT`, is not reproduced: a batch's inserts come before its COMMIT.
- The only store failures modelled are these: a column missing from `SELECT DISTINCT`, a missing lookup table, the `CREATE TABLE` failures of the reduced table, and a failed COMMIT. Whether a COMMIT succeeds is not computed; it is a parameter, `commitOk(k)` for batch number k. Every other store operation is taken to succeed:
  - the `PRAGMA` and `SELECT ... LIMIT` queries;
  - `CREATE TABLE IF NOT EXISTS` of a lookup table (TableReducer.js:49-53);
  - inserts into a lookup table (TableReducer.js:92-95, 107-110). In the source a failure there aborts the run and leaves a partly filled lookup table;
  - `BEGIN TRANSACTION` (TableReducer.js:189);
  - inserts into the reduced table, whose errors the source only logs.
- Reducer.TableReducer.CreateMapperTable: checks every column before creating any table. In the source, an untyped column's `reject` only ends that column's callback, so `CREATE TABLE` is still issued for every typed reducible column, before and after the untyped one.
- Reducer.TableReducer.FillMapperTable: fails on a missing lookup table as soon as the fill starts, even when the column has no values to insert. The source prepares the INSERT against the missing table. When that failure surfaces is up to the sqlite3 library.
- SQL type affinity is not modelled (a `champ INTEGER` column storing text as a number, for example). Values compare by plain equality, and declared types are opaque strings.
- Queries without `ORDER BY` are taken to return rows in a fixed order. SQL promises none of these orders:
  - `SELECT DISTINCT` in first-appearance order;
  - `SELECT *` in rowid order;
  - `db.get` on `WHERE champ = ?` returns the lowest-id match. This is the "first such entry" of `Sql.Resolve`, and the id a duplicated value keeps in `Lookups.RefillDuplicates`.
- Lookup tables already in the store when the reducer is constructed are taken to hold ids 1..n, in row order, with no gaps. A table with deleted rows, or with ids assigned otherwise, is not modelled.
- Reducer.TableReducer.Run: returns an `Outcome` instead of swallowing the error, and omits the `db.close()` in `finally` and all console logging. Its contract states only the no-column failure and the fresh-store success. It does not state the run against leftover lookup tables (see `Lookups.RefillDuplicates`) or an existing reduced table (see `CreateReducerTable`).
- The `if(!this.db) return` guard is not modelled: the in-memory store always exists.
- `unmodifiedCols` is a constructor parameter rather than a class field initialiser. The shipped value is `Encoding.DefaultUnmodifiedCols`.
- Ids and offsets are unbounded integers. SQLite's 64-bit row ids and JavaScript's number precision are not modelled.
- TableReducer-DESKTOP-QEGPDQC.js is not part of this model: its methods have empty bodies.

=== FILE: batching.dfy ===
/**
 * The `LIMIT/OFFSET` cursor of the row rewrite: the source is read in pages
 * at offsets 0, B, 2B, ... until the first empty page.
 */
module Batching {
  import opened Sql

  /** Rows read per `SELECT * ... LIMIT` in the row rewrite. */
  const BatchSize: nat := 2000

  /** The non-empty pages the cursor reads from `offset` on, one per step of `size`. */
  function BatchesFrom<T>(s: seq<T>, offset: nat, size: nat): (bs: seq<seq<T>>)
    requires size > 0
    ensures bs == [] <==> offset >= |s|
    decreases if offset <= |s| then |s| - offset else 0
  {
    if offset >= |s| then [] else [Page(s, offset, size)] + BatchesFrom(s, offset + size, size)
  }

  /** Every batch holds at least one row and at most one batch size of them. */
  lemma {:induction false} BatchesFromBounded<T>(s: seq<T>, offset: nat, size: nat)
    requires size > 0
    ensures forall k :: 0 <= k < |BatchesFrom(s, offset, size)| ==>
              BatchesFrom(s, offset, size)[k] != [] && |BatchesFrom(s, offset, size)[k]| <= size
    decreases if offset <= |s| then |s| - offset else 0
  {
    if offset < |s| {
      BatchesFromBounded(s, offset + size, size);
    }
  }

  /** A non-empty page is the cursor's next batch; the rest are read from one batch size further on. */
  lemma CursorStep<T>(s: seq<T>, offset: nat, size: nat)
    requires size > 0 && Page(s, offset, size) != []
    ensures BatchesFrom(s, offset, size) == [Page(s, offset, size)] + BatchesFrom(s, offset + size, size)
  {
  }

  /** The rows before a batch followed by the batch are the rows up to its end. */
  lemma PageAfterPrefix<T>(s: seq<T>, offset: nat, size: nat)
    requires offset < |s|
    ensures s[..offset] + Page(s, offset, size) == s[..Min(offset + size, |s|)]
  {
    assert s[..offset] + s[offset..Min(offset + size, |s|)] == s[..Min(offset + size, |s|)];
  }

  /**
   * The batches of a full pass, starting at offset 0: none for an empty
   * source, and together, without overlap, every row once, in order.
   */
  function Batches<T>(s: seq<T>, size: nat): (bs: seq<seq<T>>)
    requires size > 0
    ensures bs == [] <==> s == []
    ensures Flatten(bs) == s
  {
    BatchesFromCover(s, 0, size);
    BatchesFrom(s, 0, size)
  }

  function Flatten<T>(bs: seq<seq<T>>): seq<T>
  {
    if bs == [] then [] else bs[0] + Flatten(bs[1..])
  }

  /** The pages from `offset` on, laid end to end, are the rows from `offset` on. */
  lemma {:induction false} BatchesFromCover<T>(s: seq<T>, offset: nat, size: nat)
    requires size > 0 && offset <= |s|
    ensures Flatten(BatchesFrom(s, offset, size)) == s[offset..]
    decreases |s| - offset
  {
    if offset < |s| {
      var page, rest := Page(s, offset, size), BatchesFrom(s, offset + size, size);
      var end := Min(offset + size, |s|);
      calc {
        Flatten(BatchesFrom(s, offset, size));
      == { FlattenCons(page, rest); }
        page + Flatten(rest);
      == { if end < |s| { BatchesFromCover(s, end, size); } }
        s[offset..end] + s[end..];
      ==
        s[offset..];
      }
    }
  }

  lemma FlattenCons<T>(b: seq<T>, bs: seq<seq<T>>)
    ensures Flatten([b] + bs) == b + Flatten(bs)
  {
    assert ([b] + bs)[1..] == bs;
  }

  /** Batch number k is the page at offset `offset + k * size`: the offsets advance by exactly one batch size. */
  lemma {:induction false} BatchesFromAt<T>(s: seq<T>, offset: nat, size: nat, k: nat)
    requires size > 0 && k < |BatchesFrom(s, offset, size)|
    ensures BatchesFrom(s, offset, size)[k] == Page(s, offset + k * size, size)
    decreases k
  {
    if k > 0 {
      var bs, rest := BatchesFrom(s, offset, size), BatchesFrom(s, offset + size, size);
      assert bs == [Page(s, offset, size)] + rest;
      assert bs[k] == rest[k - 1];
      BatchesFromAt(s, offset + size, size, k - 1);
      MulStep(k, size);
    }
  }

  lemma MulStep(k: nat, size: nat)
    requires k > 0
    ensures size + (k - 1) * size == k * size
  {
  }

  /** Every batch but the last is full. */
  lemma {:induction false} BatchesFromFull<T>(s: seq<T>, offset: nat, size: nat, k: nat)
    requires size > 0 && k + 1 < |BatchesFrom(s, offset, size)|
    ensures |BatchesFrom(s, offset, size)[k]| == size
    decreases k
  {
    if k > 0 {
      BatchesFromFull(s, offset + size, size, k - 1);
    } else {
      assert offset + size < |s|;
    }
  }

  /** Five rows in batches of two are read as batches of 2, 2 and 1 rows. */
  lemma FiveRowsInPairs<T>(s: seq<T>)
    requires |s| == 5
    ensures |Batches(s, 2)| == 3
    ensures |Batches(s, 2)[0]| == 2 && |Batches(s, 2)[1]| == 2 && |Batches(s, 2)[2]| == 1
    ensures Flatten(Batches(s, 2)) == s
  {
    assert BatchesFrom(s, 6, 2) == [];
    assert BatchesFrom(s, 4, 2) == [s[4..5]];
    assert BatchesFrom(s, 2, 2) == [s[2..4], s[4..5]];
  }
}

=== FILE: encoding.dfy ===
/**
 * The pure parts of the table reducer: the configuration constants, the
 * lookup-table naming template, the column classification, the reduced-table
 * schema, and the per-row value mapping together with its inverse (decoding a
 * reduced row back through the lookup tables).
 */
module Encoding {
  import opened Sql

  const SourceTableName: string := "oa_trf_src"
  const ReducedTableName: string := "oa_trf_src_red"
  /** The columns the reducer copies verbatim, as configured on the class. */
  const DefaultUnmodifiedCols: seq<string> := ["impact"]

  const LookupPrefix: string := "oa_trf_src_"
  const LookupSuffix: string := "_lkp"

  datatype Error =
    | NoColumnsToReduce          // "Probably no columns exist"
    | MissingType(col: string)   // a reducible column without a declared type
    | NoSuchColumn(col: string)  // SELECT DISTINCT on a column the source lacks
    | NoSuchTable(table: string) // INSERT into a lookup table that was never created
    | EmptyColumnList            // CREATE TABLE with an empty column list
    | TableExists(table: string) // CREATE TABLE on a name already taken
    | CommitFailed(batch: nat)   // the COMMIT of batch number `batch` failed

  /**
   * A lookup table `(id INTEGER PRIMARY KEY AUTOINCREMENT, champ <type>)`. Rows
   * are only ever appended, so the row at index i carries id i + 1: the id
   * AUTOINCREMENT hands out on a freshly created table.
   */
  datatype LookupTable = LookupTable(valueType: string, values: seq<Value>)

  /** The reduced table: its declared columns and its rows, each aligned with the column list. */
  datatype ReducedTable = ReducedTable(columns: seq<Column>, rows: seq<seq<Value>>)

  // ---------------------------------------------------------------------------
  // Lookup-table naming

  /** The template `oa_trf_src_${col}_lkp`, used alike at creation, fill and resolve time. */
  function LookupName(col: string): (name: string)
    ensures |name| == |LookupPrefix| + |col| + |LookupSuffix|
    ensures name[..|LookupPrefix|] == LookupPrefix && name[|name| - |LookupSuffix|..] == LookupSuffix
    ensures name[|LookupPrefix|..|LookupPrefix| + |col|] == col
  {
    LookupPrefix + col + LookupSuffix
  }

  /** Distinct columns get distinct lookup tables. */
  lemma LookupNameInjective(a: string, b: string)
    ensures LookupName(a) == LookupName(b) ==> a == b
  {
    if LookupName(a) == LookupName(b) {
      assert |a| == |b|;
      assert LookupName(a)[|LookupPrefix|..|LookupPrefix| + |a|] == a;
      assert LookupName(b)[|LookupPrefix|..|LookupPrefix| + |b|] == b;
    }
  }

  /** No lookup table can take the name of the source or of the reduced table. */
  lemma LookupNameIsNoStageTable(col: string)
    ensures LookupName(col) != SourceTableName
    ensures LookupName(col) != ReducedTableName
  {
    assert |LookupName(col)| >= 15;
  }

  // ---------------------------------------------------------------------------
  // Column classification

  /** What the filter keeps of one column: the column itself, or nothing when it is copied verbatim. */
  function Kept(col: string, unmodified: seq<string>): seq<string>
  {
    if col in unmodified then [] else [col]
  }

  /** `allCols.filter(col => !unmodifiedCols.includes(col))` */
  function ReducibleCols(allCols: seq<string>, unmodified: seq<string>): (cols: seq<string>)
    ensures |cols| <= |allCols|
  {
    if allCols == [] then []
    else Kept(allCols[0], unmodified) + ReducibleCols(allCols[1..], unmodified)
  }

  /** The complementary filter: the columns copied verbatim, in source order. */
  function PassThroughCols(allCols: seq<string>, unmodified: seq<string>): seq<string>
  {
    if allCols == [] then []
    else (if allCols[0] in unmodified then [allCols[0]] else []) + PassThroughCols(allCols[1..], unmodified)
  }

  /** A column is reducible exactly when it is a source column that is not copied verbatim. */
  lemma {:induction false} ReducibleColsMembers(allCols: seq<string>, unmodified: seq<string>)
    ensures forall c :: c in ReducibleCols(allCols, unmodified) <==> c in allCols && c !in unmodified
  {
    if allCols != [] {
      ReducibleColsMembers(allCols[1..], unmodified);
      assert allCols == [allCols[0]] + allCols[1..];
    }
  }

  /** In the shipped configuration `impact` is copied verbatim and every other source column is reduced. */
  lemma ShippedClassification(allCols: seq<string>)
    ensures forall c :: c in ReducibleCols(allCols, DefaultUnmodifiedCols) <==> c in allCols && c != "impact"
    ensures forall c :: c in PassThroughCols(allCols, DefaultUnmodifiedCols) <==> c in allCols && c == "impact"
  {
    ReducibleColsMembers(allCols, DefaultUnmodifiedCols);
    PassThroughColsMembers(allCols, DefaultUnmodifiedCols);
  }

  /** For example, on the columns `id`, `impact` and `country`: `id` and `country` are reduced, in order. */
  lemma ShippedConfiguration()
    ensures ReducibleCols(["id", "impact", "country"], DefaultUnmodifiedCols) == ["id", "country"]
    ensures PassThroughCols(["id", "impact", "country"], DefaultUnmodifiedCols) == ["impact"]
  {
    assert "id" != "impact" && "country" != "impact";
  }

  /** A column is passed through exactly when it is a source column that is copied verbatim. */
  lemma {:induction false} PassThroughColsMembers(allCols: seq<string>, unmodified: seq<string>)
    ensures forall c :: c in PassThroughCols(allCols, unmodified) <==> c in allCols && c in unmodified
  {
    if allCols != [] {
      PassThroughColsMembers(allCols[1..], unmodified);
      assert allCols == [allCols[0]] + allCols[1..];
    }
  }

  /** The classification is a partition: every column lands in exactly one class, none is lost or duplicated. */
  lemma {:induction false} ClassificationPartition(allCols: seq<string>, unmodified: seq<string>)
    ensures multiset(ReducibleCols(allCols, unmodified)) + multiset(PassThroughCols(allCols, unmodified))
         == multiset(allCols)
  {
    if allCols != [] {
      var c, rest := allCols[0], allCols[1..];
      ClassificationPartition(rest, unmodified);
      ClassifyHead(c, rest, unmodified);
      assert allCols == [c] + rest;
    }
  }

  /** The first column lands in exactly one class, ahead of the classes of the rest. */
  lemma ClassifyHead(c: string, rest: seq<string>, unmodified: seq<string>)
    ensures multiset(ReducibleCols([c] + rest, unmodified)) + multiset(PassThroughCols([c] + rest, unmodified))
         == multiset{c} + (multiset(ReducibleCols(rest, unmodified)) + multiset(PassThroughCols(rest, unmodified)))
  {
    assert ([c] + rest)[0] == c && ([c] + rest)[1..] == rest;
  }

  /** The filter keeps source order: it distributes over concatenation. */
  lemma {:induction false} ReducibleColsAppend(a: seq<string>, b: seq<string>, unmodified: seq<string>)
    ensures ReducibleCols(a + b, unmodified) == ReducibleCols(a, unmodified) + ReducibleCols(b, unmodified)
  {
    if a == [] {
      assert a + b == b;
    } else {
      var head, x, y := Kept(a[0], unmodified), ReducibleCols(a[1..], unmodified), ReducibleCols(b, unmodified);
      calc {
        ReducibleCols(a + b, unmodified);
      == { assert (a + b)[0] == a[0] && (a + b)[1..] == a[1..] + b; }
        head + ReducibleCols(a[1..] + b, unmodified);
      == { ReducibleColsAppend(a[1..], b, unmodified); }
        head + (x + y);
      ==
        (head + x) + y;
      }
    }
  }

  // ---------------------------------------------------------------------------
  // Lookup-table creation checks

  /**
   * `rows.find(row => row.name === col).type`: the declared type of the first
   * schema entry of that name; "" for a column declared without a type. A
   * column missing from the schema, which `colsToReduce` never holds, would
   * make the source throw; here it also gives "".
   */
  function DeclaredType(schema: seq<Column>, col: string): (t: string)
    ensures t != "" ==> Column(col, t) in schema
    ensures (forall e :: e in schema ==> e.name != col) ==> t == ""
    ensures forall i :: 0 <= i < |schema| && schema[i].name == col && (forall j :: 0 <= j < i ==> schema[j].name != col)
              ==> t == schema[i].declType
  {
    if schema == [] then ""
    else if schema[0].name == col then schema[0].declType
    else DeclaredType(schema[1..], col)
  }

  /** A column with a declared type (the empty string reads as false in JavaScript). */
  predicate HasType(schema: seq<Column>, col: string)
  {
    DeclaredType(schema, col) != ""
  }

  /** The first reducible column without a declared type, if any. */
  function FirstUntyped(schema: seq<Column>, cols: seq<string>): (r: Outcome<Error>)
    ensures r == Pass <==> forall c :: c in cols ==> HasType(schema, c)
    ensures r.Fail? ==> r.error.MissingType? && r.error.col in cols && !HasType(schema, r.error.col)
  {
    if cols == [] then Pass
    else if !HasType(schema, cols[0]) then Fail(MissingType(cols[0]))
    else FirstUntyped(schema, cols[1..])
  }

  /** The column a failure names is the first untyped one: every reducible column before it has a type. */
  lemma {:induction false} FirstUntypedIsFirst(schema: seq<Column>, cols: seq<string>)
    requires FirstUntyped(schema, cols).Fail?
    ensures var col := FirstUntyped(schema, cols).error.col;
            exists i :: 0 <= i < |cols| && cols[i] == col && forall j :: 0 <= j < i ==> HasType(schema, cols[j])
  {
    if HasType(schema, cols[0]) {
      var col := FirstUntyped(schema, cols).error.col;
      FirstUntypedIsFirst(schema, cols[1..]);
      var i :| 0 <= i < |cols[1..]| && cols[1..][i] == col && forall j :: 0 <= j < i ==> HasType(schema, cols[1..][j]);
      assert cols[i + 1] == col;
      assert forall j :: 0 <= j < i + 1 ==> HasType(schema, cols[j]) by {
        forall j | 0 <= j < i + 1 ensures HasType(schema, cols[j]) {
          if j > 0 { assert cols[j] == cols[1..][j - 1]; }
        }
      }
    } else {
      assert cols[0] == FirstUntyped(schema, cols).error.col;
    }
  }

  /**
   * The failures of `createMapperTable`: no column to reduce, or a reducible
   * column with no declared type.
   */
  function CheckMapperColumns(schema: seq<Column>, cols: seq<string>): (r: Outcome<Error>)
    ensures r == Pass <==> cols != [] && forall c :: c in cols ==> HasType(schema, c)
    ensures r == Fail(NoColumnsToReduce) <==> cols == []
    ensures r.Fail? && r != Fail(NoColumnsToReduce) ==>
              r.error.MissingType? && r.error.col in cols && !HasType(schema, r.error.col)
  {
    if cols == [] then Fail(NoColumnsToReduce) else FirstUntyped(schema, cols)
  }

  // ---------------------------------------------------------------------------
  // Reduced-table schema

  /** The `PRAGMA table_info` rows whose name is in `allCols`, in schema order, with their declared types. */
  function ReducedSchema(schema: seq<Column>, allCols: seq<string>): (r: seq<Column>)
    ensures forall c :: c in r <==> c in schema && c.name in allCols
    ensures |r| <= |schema|
  {
    if schema == [] then []
    else (if schema[0].name in allCols then [schema[0]] else []) + ReducedSchema(schema[1..], allCols)
  }

  /** When every source column is listed, the reduced schema is the source schema: same order, same types. */
  lemma {:induction false} ReducedSchemaKeepsEveryColumn(schema: seq<Column>, allCols: seq<string>)
    requires forall i :: 0 <= i < |schema| ==> schema[i].name in allCols
    ensures ReducedSchema(schema, allCols) == schema
  {
    if schema != [] {
      ReducedSchemaKeepsEveryColumn(schema[1..], allCols);
    }
  }

  // ---------------------------------------------------------------------------
  // Row rewrite

  /**
   * One entry of the per-row `allCols.map(...)`: an unmodified column is copied;
   * a reducible column becomes the id of the matching lookup row, or NULL when
   * nothing matches (`rowReduced?.id` is undefined). None when the lookup query
   * fails because the lookup table does not exist.
   */
  function RewriteCell(row: Row, col: string, unmodified: seq<string>, lookups: map<string, LookupTable>)
    : (r: Option<Value>)
    ensures r.None? <==> col !in unmodified && LookupName(col) !in lookups
    ensures col in unmodified ==> r == Some(Cell(row, col))
    ensures col !in unmodified && LookupName(col) in lookups ==>
              var values := lookups[LookupName(col)].values;
              if Cell(row, col) != Null && Cell(row, col) in values
              then r.Some? && r.value.Int? && 1 <= r.value.i <= |values| && values[r.value.i - 1] == Cell(row, col)
              else r == Some(Null)
  {
    if col in unmodified then Some(Cell(row, col))
    else if LookupName(col) !in lookups then None
    else
      match Resolve(lookups[LookupName(col)].values, Cell(row, col))
      case Some(id) => Some(Int(id))
      case None => Some(Null)
  }

  /**
   * The values inserted for one source row, one per column of `allCols` in that
   * order; None when some reducible column cannot be resolved at all, in which
   * case the row is not inserted.
   */
  function RewriteRow(row: Row, allCols: seq<string>, unmodified: seq<string>, lookups: map<string, LookupTable>)
    : (r: Option<seq<Value>>)
    ensures r.Some? ==> |r.value| == |allCols|
  {
    if allCols == [] then Some([])
    else
      match (RewriteCell(row, allCols[0], unmodified, lookups), RewriteRow(row, allCols[1..], unmodified, lookups))
      case (Some(v), Some(vs)) => Some([v] + vs)
      case _ => None
  }

  /**
   * A row is rewritten exactly when every one of its cells is, and then the
   * rewritten row holds each column's rewritten cell at that column's position.
   */
  lemma {:induction false} RewriteRowCells(row: Row, allCols: seq<string>, unmodified: seq<string>,
                                           lookups: map<string, LookupTable>)
    ensures RewriteRow(row, allCols, unmodified, lookups).Some?
        <==> forall c :: c in allCols ==> RewriteCell(row, c, unmodified, lookups).Some?
    ensures RewriteRow(row, allCols, unmodified, lookups).Some? ==>
              forall i :: 0 <= i < |allCols| ==>
                RewriteCell(row, allCols[i], unmodified, lookups) == Some(RewriteRow(row, allCols, unmodified, lookups).value[i])
  {
    if allCols != [] {
      var c, rest := allCols[0], allCols[1..];
      RewriteRowCells(row, rest, unmodified, lookups);
      assert forall d :: d in allCols <==> d == c || d in rest;
      var r := RewriteRow(row, allCols, unmodified, lookups);
      if r.Some? {
        var vs := RewriteRow(row, rest, unmodified, lookups).value;
        assert r.value == [RewriteCell(row, c, unmodified, lookups).value] + vs;
        forall i | 1 <= i < |allCols|
          ensures RewriteCell(row, allCols[i], unmodified, lookups) == Some(r.value[i])
        {
          assert allCols[i] == rest[i - 1] && r.value[i] == vs[i - 1];
        }
      }
    }
  }

  /** What one source row contributes to the insert: its rewrite, or nothing when it has none. */
  function Emitted(row: Row, allCols: seq<string>, unmodified: seq<string>, lookups: map<string, LookupTable>)
    : (r: seq<seq<Value>>)
    ensures |r| <= 1
  {
    match RewriteRow(row, allCols, unmodified, lookups)
    case Some(vs) => [vs]
    case None => []
  }

  /** The rows a batch inserts: each rewritten row, in order, skipping those that could not be rewritten. */
  function RewriteRows(rows: seq<Row>, allCols: seq<string>, unmodified: seq<string>, lookups: map<string, LookupTable>)
    : (r: seq<seq<Value>>)
    ensures |r| <= |rows|
  {
    if rows == [] then []
    else Emitted(rows[0], allCols, unmodified, lookups) + RewriteRows(rows[1..], allCols, unmodified, lookups)
  }

  lemma {:induction false} RewriteRowsAppend(a: seq<Row>, b: seq<Row>, allCols: seq<string>, unmodified: seq<string>,
                                             lookups: map<string, LookupTable>)
    ensures RewriteRows(a + b, allCols, unmodified, lookups)
         == RewriteRows(a, allCols, unmodified, lookups) + RewriteRows(b, allCols, unmodified, lookups)
  {
    if a == [] {
      assert a + b == b;
    } else {
      var head := Emitted(a[0], allCols, unmodified, lookups);
      var x, y := RewriteRows(a[1..], allCols, unmodified, lookups), RewriteRows(b, allCols, unmodified, lookups);
      calc {
        RewriteRows(a + b, allCols, unmodified, lookups);
      == { assert (a + b)[0] == a[0] && (a + b)[1..] == a[1..] + b; }
        head + RewriteRows(a[1..] + b, allCols, unmodified, lookups);
      == { RewriteRowsAppend(a[1..], b, allCols, unmodified, lookups); }
        head + (x + y);
      ==
        (head + x) + y;
      }
    }
  }

  /** Rewriting one more row adds that row's rewrite, if it has one, at the end. */
  lemma RewriteRowsSnoc(rows: seq<Row>, row: Row, allCols: seq<string>, unmodified: seq<string>,
                        lookups: map<string, LookupTable>)
    ensures RewriteRows(rows + [row], allCols, unmodified, lookups)
         == RewriteRows(rows, allCols, unmodified, lookups) + Emitted(row, allCols, unmodified, lookups)
  {
    RewriteRowsAppend(rows, [row], allCols, unmodified, lookups);
    assert RewriteRows([row], allCols, unmodified, lookups) == Emitted(row, allCols, unmodified, lookups) + [];
  }

  // ---------------------------------------------------------------------------
  // Decoding a reduced row back through the lookup tables

  /** A reduced value read back: copied columns as they are, a key through its lookup table, NULL as NULL. */
  function DecodeCell(v: Value, col: string, unmodified: seq<string>, lookups: map<string, LookupTable>): Option<Value>
  {
    if col in unmodified then Some(v)
    else if LookupName(col) !in lookups then None
    else
      var values := lookups[LookupName(col)].values;
      match v
      case Null => Some(Null)
      case Int(id) => if 1 <= id <= |values| then Some(values[id - 1]) else None
      case _ => None
  }

  function DecodeRow(cells: seq<Value>, allCols: seq<string>, unmodified: seq<string>, lookups: map<string, LookupTable>)
    : (r: Option<Row>)
    ensures r.Some? ==> |cells| == |allCols| && r.value.Keys == set c | c in allCols
    decreases allCols
  {
    if |cells| != |allCols| then None
    else if allCols == [] then Some(map[])
    else
      match (DecodeCell(cells[0], allCols[0], unmodified, lookups), DecodeRow(cells[1..], allCols[1..], unmodified, lookups))
      case (Some(v), Some(m)) => Some(m[allCols[0] := v])
      case _ => None
  }

  /** The source row restricted to the listed columns, a missing column read as NULL. */
  function Project(row: Row, cols: seq<string>): map<string, Value>
  {
    map c | c in cols :: Cell(row, c)
  }

  /** A source row is resolvable when each reducible column has its lookup table and its value, unless NULL, is in it. */
  predicate Resolvable(row: Row, allCols: seq<string>, unmodified: seq<string>, lookups: map<string, LookupTable>)
  {
    forall c :: c in allCols && c !in unmodified ==>
      LookupName(c) in lookups && (Cell(row, c) == Null || Cell(row, c) in lookups[LookupName(c)].values)
  }

  /** A reducible value survives the rewrite exactly when it is NULL or present in its lookup table. */
  lemma CellRoundTrip(row: Row, col: string, unmodified: seq<string>, lookups: map<string, LookupTable>)
    requires col in unmodified || LookupName(col) in lookups
    ensures RewriteCell(row, col, unmodified, lookups).Some?
    ensures DecodeCell(RewriteCell(row, col, unmodified, lookups).value, col, unmodified, lookups) == Some(Cell(row, col))
        <==> col in unmodified || Cell(row, col) == Null || Cell(row, col) in lookups[LookupName(col)].values
  {
  }

  /** Decoding a rewritten resolvable row gives back the source row's values for every listed column. */
  lemma {:induction false} RowRoundTrip(row: Row, allCols: seq<string>, unmodified: seq<string>,
                                        lookups: map<string, LookupTable>)
    requires Resolvable(row, allCols, unmodified, lookups)
    ensures RewriteRow(row, allCols, unmodified, lookups).Some?
    ensures DecodeRow(RewriteRow(row, allCols, unmodified, lookups).value, allCols, unmodified, lookups)
         == Some(Project(row, allCols))
  {
    if allCols != [] {
      var c, rest := allCols[0], allCols[1..];
      RowRoundTrip(row, rest, unmodified, lookups);
      CellRoundTrip(row, c, unmodified, lookups);
      var cells := RewriteRow(row, allCols, unmodified, lookups).value;
      assert cells[0] == RewriteCell(row, c, unmodified, lookups).value
          && cells[1..] == RewriteRow(row, rest, unmodified, lookups).value;
      assert Project(row, allCols) == Project(row, rest)[c := Cell(row, c)];
    }
  }

  /** When a source row has exactly the listed columns, its projection is the row itself. */
  lemma ProjectWholeRow(row: Row, cols: seq<string>)
    requires row.Keys == set c | c in cols
    ensures Project(row, cols) == row
  {
  }

  /** When every row can be rewritten, the insert holds each row's rewrite, in source order, none skipped. */
  lemma {:induction false} RewriteRowsNoneSkipped(rows: seq<Row>, allCols: seq<string>, unmodified: seq<string>,
                                                  lookups: map<string, LookupTable>)
    requires forall i :: 0 <= i < |rows| ==> RewriteRow(rows[i], allCols, unmodified, lookups).Some?
    ensures |RewriteRows(rows, allCols, unmodified, lookups)| == |rows|
    ensures forall i :: 0 <= i < |rows| ==>
              RewriteRows(rows, allCols, unmodified, lookups)[i] == RewriteRow(rows[i], allCols, unmodified, lookups).value
  {
    if rows != [] {
      RewriteRowsNoneSkipped(rows[1..], allCols, unmodified, lookups);
      var head := RewriteRow(rows[0], allCols, unmodified, lookups).value;
      var rest := RewriteRows(rows[1..], allCols, unmodified, lookups);
      assert RewriteRows(rows, allCols, unmodified, lookups) == [head] + rest;
      forall i | 1 <= i < |rows|
        ensures RewriteRows(rows, allCols, unmodified, lookups)[i] == RewriteRow(rows[i], allCols, unmodified, lookups).value
      {
        assert rows[i] == rows[1..][i - 1];
      }
    }
  }

  /** Resolvable rows are all inserted, and each decodes back to its source row. */
  lemma RowsRoundTrip(rows: seq<Row>, allCols: seq<string>, unmodified: seq<string>,
                      lookups: map<string, LookupTable>)
    requires forall i :: 0 <= i < |rows| ==> Resolvable(rows[i], allCols, unmodified, lookups)
    ensures |RewriteRows(rows, allCols, unmodified, lookups)| == |rows|
    ensures forall i :: 0 <= i < |rows| ==>
              DecodeRow(RewriteRows(rows, allCols, unmodified, lookups)[i], allCols, unmodified, lookups)
              == Some(Project(rows[i], allCols))
  {
    forall i | 0 <= i < |rows|
      ensures RewriteRow(rows[i], allCols, unmodified, lookups).Some?
      ensures DecodeRow(RewriteRow(rows[i], allCols, unmodified, lookups).value, allCols, unmodified, lookups)
              == Some(Project(rows[i], allCols))
    {
      RowRoundTrip(rows[i], allCols, unmodified, lookups);
    }
    RewriteRowsNoneSkipped(rows, allCols, unmodified, lookups);
  }

}

=== FILE: lookups.dfy ===
/**
 * The lookup tables as a whole: creating one per reducible column, filling
 * each from the source, and what the tables hold once filled.
 */
module Lookups {
  import opened Sql
  import opened Encoding

  // ---------------------------------------------------------------------------
  // Creation

  /**
   * The store after `CREATE TABLE IF NOT EXISTS oa_trf_src_<col>_lkp` for each
   * column in turn: a name already taken keeps its table, a new one gets an
   * empty table typed like the source column.
   */
  function CreateLookupTables(lookups: map<string, LookupTable>, schema: seq<Column>, cols: seq<string>)
    : (m: map<string, LookupTable>)
    ensures forall n :: n in lookups ==> n in m && m[n] == lookups[n]
    ensures forall c :: c in cols ==> LookupName(c) in m
    decreases |cols|
  {
    if cols == [] then lookups
    else
      var m := CreateLookupTables(lookups, schema, cols[..|cols| - 1]);
      var c := cols[|cols| - 1];
      assert forall d :: d in cols ==> d in cols[..|cols| - 1] || d == c;
      if LookupName(c) in m then m else m[LookupName(c) := LookupTable(DeclaredType(schema, c), [])]
  }

  /**
   * Creation adds no table beyond those named after the columns, and each
   * table it does add is empty and typed with its column's declared type.
   */
  lemma {:induction false} CreateLookupTablesContents(lookups: map<string, LookupTable>, schema: seq<Column>,
                                                      cols: seq<string>)
    ensures forall n :: n in CreateLookupTables(lookups, schema, cols) ==>
              n in lookups || exists c :: c in cols && n == LookupName(c)
    ensures forall c :: c in cols && LookupName(c) !in lookups ==>
              CreateLookupTables(lookups, schema, cols)[LookupName(c)] == LookupTable(DeclaredType(schema, c), [])
    decreases |cols|
  {
    if cols != [] {
      var init, last := cols[..|cols| - 1], cols[|cols| - 1];
      assert cols == init + [last];
      CreateLookupTablesContents(lookups, schema, init);
      var m, name := CreateLookupTables(lookups, schema, init), LookupName(last);
      forall c | c in cols && LookupName(c) !in lookups
        ensures CreateLookupTables(lookups, schema, cols)[LookupName(c)] == LookupTable(DeclaredType(schema, c), [])
      {
        LookupNameInjective(c, last);
        if c == last && name in m {
          var d :| d in init && name == LookupName(d);
          LookupNameInjective(d, last);
        }
      }
    }
  }

  // ---------------------------------------------------------------------------
  // Filling

  /** The store after every distinct value of `col` is appended to its lookup table. */
  function FillLookup(lookups: map<string, LookupTable>, source: seq<Row>, col: string): (m: map<string, LookupTable>)
    requires LookupName(col) in lookups
    ensures m.Keys == lookups.Keys
  {
    var table := lookups[LookupName(col)];
    lookups[LookupName(col) := table.(values := table.values + Distinct(ColumnValues(source, col)))]
  }

  /** The store after filling the lookup table of each column in turn. */
  function FillLookups(lookups: map<string, LookupTable>, source: seq<Row>, cols: seq<string>)
    : (m: map<string, LookupTable>)
    requires forall c :: c in cols ==> LookupName(c) in lookups
    ensures m.Keys == lookups.Keys
    decreases |cols|
  {
    if cols == [] then lookups
    else FillLookup(FillLookups(lookups, source, cols[..|cols| - 1]), source, cols[|cols| - 1])
  }

  /** Filling leaves alone every table not named after one of the columns. */
  lemma {:induction false} FillLookupsKeepsOthers(lookups: map<string, LookupTable>, source: seq<Row>,
                                                  cols: seq<string>)
    requires forall c :: c in cols ==> LookupName(c) in lookups
    ensures forall n :: n in lookups && (forall c :: c in cols ==> n != LookupName(c)) ==>
              FillLookups(lookups, source, cols)[n] == lookups[n]
    decreases |cols|
  {
    if cols != [] {
      var init, last := cols[..|cols| - 1], cols[|cols| - 1];
      assert cols == init + [last];
      FillLookupsKeepsOthers(lookups, source, init);
    }
  }

  /**
   * Filling distinct columns appends to each column's table that column's
   * distinct values, once.
   */
  lemma {:induction false} FillLookupsContents(lookups: map<string, LookupTable>, source: seq<Row>, cols: seq<string>)
    requires forall c :: c in cols ==> LookupName(c) in lookups
    requires NoDuplicates(cols)
    ensures forall c :: c in cols ==>
              var table := lookups[LookupName(c)];
              FillLookups(lookups, source, cols)[LookupName(c)]
              == table.(values := table.values + Distinct(ColumnValues(source, c)))
    decreases |cols|
  {
    if cols != [] {
      var init, last := cols[..|cols| - 1], cols[|cols| - 1];
      assert cols == init + [last];
      assert NoDuplicates(init) && last !in init;
      FillLookupsContents(lookups, source, init);
      FillLookupsKeepsOthers(lookups, source, init);
      var m, name := FillLookups(lookups, source, init), LookupName(last);
      forall c | c in init ensures LookupName(c) != name {
        LookupNameInjective(c, last);
      }
      assert m[name] == lookups[name];
    }
  }

  /**
   * A full lookup stage from a store holding none of the tables: every
   * reducible column's table is typed like the column and holds exactly the
   * column's distinct values.
   */
  lemma FreshLookupsFilled(lookups: map<string, LookupTable>, schema: seq<Column>, source: seq<Row>,
                           cols: seq<string>)
    requires NoDuplicates(cols)
    requires forall c :: c in cols ==> HasType(schema, c) && LookupName(c) !in lookups
    ensures var created := CreateLookupTables(lookups, schema, cols);
            && (forall c :: c in cols ==> LookupName(c) in created)
            && FilledFrom(FillLookups(created, source, cols), source, cols)
            && forall c :: c in cols ==>
                 FillLookups(created, source, cols)[LookupName(c)].valueType == DeclaredType(schema, c)
  {
    var created := CreateLookupTables(lookups, schema, cols);
    CreateLookupTablesContents(lookups, schema, cols);
    FillLookupsContents(created, source, cols);
  }

  // ---------------------------------------------------------------------------
  // Contents of a filled table

  /** Each reducible column's lookup table holds that column's distinct source values. */
  predicate FilledFrom(lookups: map<string, LookupTable>, source: seq<Row>, cols: seq<string>)
  {
    forall c :: c in cols ==>
      LookupName(c) in lookups && lookups[LookupName(c)].values == Distinct(ColumnValues(source, c))
  }

  /**
   * A lookup filled once on a fresh table holds exactly the column's distinct
   * values, each once (so each value has one id), NULL included when present;
   * every non-NULL source value resolves to the id of its own entry, while the
   * NULL entry never resolves.
   */
  lemma FreshLookupContents(source: seq<Row>, col: string)
    ensures var values := Distinct(ColumnValues(source, col));
      && NoDuplicates(values)
      && (forall v :: v in values <==> exists i :: 0 <= i < |source| && Cell(source[i], col) == v)
      && (forall i :: 0 <= i < |source| && Cell(source[i], col) != Null ==>
            && Resolve(values, Cell(source[i], col)).Some?
            && values[Resolve(values, Cell(source[i], col)).value - 1] == Cell(source[i], col))
      && ((exists i :: 0 <= i < |source| && Cell(source[i], col) == Null) ==>
            Null in values && Resolve(values, Null).None?)
  {
    var vs := ColumnValues(source, col);
    var values := Distinct(vs);
    forall v | v in values
      ensures exists i :: 0 <= i < |source| && Cell(source[i], col) == v
    {
      var i :| 0 <= i < |vs| && vs[i] == v;
    }
    forall i | 0 <= i < |source|
      ensures Cell(source[i], col) in values
    {
      assert vs[i] == Cell(source[i], col);
    }
  }

  /**
   * Filling an existing lookup table a second time (CREATE TABLE IF NOT EXISTS
   * keeps it) appends every value again: the table then holds duplicates,
   * although each value still resolves to its first id.
   */
  lemma RefillDuplicates(lookups: map<string, LookupTable>, source: seq<Row>, col: string)
    requires |source| > 0
    requires LookupName(col) in lookups
    requires lookups[LookupName(col)].values == Distinct(ColumnValues(source, col))
    ensures var values := Distinct(ColumnValues(source, col));
      var refilled := FillLookup(lookups, source, col)[LookupName(col)].values;
      && refilled == values + values
      && !NoDuplicates(refilled)
      && forall v :: Resolve(refilled, v) == Resolve(values, v)
  {
    var vs := ColumnValues(source, col);
    var values := Distinct(vs);
    assert vs[0] in values;
    var twice := values + values;
    assert twice[0] == twice[|values|];
    forall v ensures Resolve(twice, v) == Resolve(values, v) {
      ResolvePrefix(values, values, v);
    }
  }

  /** A value found in a prefix resolves there; a value in neither resolves nowhere. */
  lemma {:induction false} ResolvePrefix(a: seq<Value>, b: seq<Value>, v: Value)
    requires v in a || v !in b
    ensures Resolve(a + b, v) == Resolve(a, v)
  {
    if v != Null && a != [] && a[0] != v {
      ResolvePrefix(a[1..], b, v);
      assert (a + b)[1..] == a[1..] + b;
    }
  }

  /** Lookups filled from the source make every source row resolvable. */
  lemma FilledLookupsResolveEveryRow(source: seq<Row>, allCols: seq<string>, unmodified: seq<string>,
                                     lookups: map<string, LookupTable>)
    requires FilledFrom(lookups, source, ReducibleCols(allCols, unmodified))
    ensures forall i :: 0 <= i < |source| ==> Resolvable(source[i], allCols, unmodified, lookups)
  {
    ReducibleColsMembers(allCols, unmodified);
    forall i, c | 0 <= i < |source| && c in allCols && c !in unmodified
      ensures LookupName(c) in lookups
      ensures Cell(source[i], c) == Null || Cell(source[i], c) in lookups[LookupName(c)].values
    {
      assert c in ReducibleCols(allCols, unmodified);
      assert ColumnValues(source, c)[i] == Cell(source[i], c);
    }
  }
}

=== FILE: reducer.dfy ===
/**
 * The table reducer itself: an object over an in-memory store whose methods
 * are the stages of the pipeline, run in order by `Run`.
 */
module Reducer {
  import opened Sql
  import opened Encoding
  import opened Batching
  import opened Lookups

  /** The reduced table after the rows of a committed batch are appended; no table, no rows. */
  function Appended(t: Option<ReducedTable>, rows: seq<seq<Value>>): (r: Option<ReducedTable>)
    ensures r.Some? <==> t.Some?
    ensures r.Some? ==> r.value.columns == t.value.columns && |r.value.rows| == |t.value.rows| + |rows|
  {
    match t
    case None => None
    case Some(table) => Some(table.(rows := table.rows + rows))
  }

  lemma AppendedTwice(t: Option<ReducedTable>, a: seq<seq<Value>>, b: seq<seq<Value>>)
    ensures Appended(Appended(t, a), b) == Appended(t, a + b)
  {
    if t.Some? {
      assert t.value.rows + a + b == t.value.rows + (a + b);
    }
  }

  lemma AppendedNothing(t: Option<ReducedTable>)
    ensures Appended(t, []) == t
  {
    if t.Some? {
      assert t.value.rows + [] == t.value.rows;
    }
  }

  /** Batches 0 .. n-1 all commit. */
  ghost predicate CommitsBefore(commitOk: nat -> bool, n: nat)
  {
    forall j :: 0 <= j < n ==> commitOk(j)
  }

  lemma CommitsNext(commitOk: nat -> bool, k: nat)
    requires CommitsBefore(commitOk, k) && commitOk(k)
    ensures CommitsBefore(commitOk, k + 1)
  {
  }

  /** The distinct names of a SQL table's columns stay distinct once filtered. */
  lemma {:induction false} ReducibleColsNoDuplicates(allCols: seq<string>, unmodified: seq<string>)
    requires NoDuplicates(allCols)
    ensures NoDuplicates(ReducibleCols(allCols, unmodified))
  {
    if allCols != [] {
      ReducibleColsNoDuplicates(allCols[1..], unmodified);
      ReducibleColsMembers(allCols[1..], unmodified);
      assert allCols[0] !in allCols[1..];
    }
  }

  class TableReducer {
    /** `PRAGMA table_info(oa_trf_src)`: the source table's columns in declaration order. */
    const schema: seq<Column>
    /** The rows of `oa_trf_src`, in rowid order; the source table is only read. */
    const source: seq<Row>
    /** The columns copied verbatim (`["impact"]` in the shipped configuration, `DefaultUnmodifiedCols`). */
    const unmodifiedCols: seq<string>

    var allCols: seq<string>
    var colsToReduce: seq<string>
    /** The store's lookup tables, by table name. */
    var lookups: map<string, LookupTable>
    /** The table `oa_trf_src_red`, once it exists. */
    var reduced: Option<ReducedTable>

    /** A reducer over a store that already holds `lookups` and, possibly, a reduced table. */
    constructor(schema: seq<Column>, source: seq<Row>, unmodifiedCols: seq<string>,
                lookups: map<string, LookupTable>, reduced: Option<ReducedTable>)
      ensures this.schema == schema && this.source == source && this.unmodifiedCols == unmodifiedCols
      ensures this.lookups == lookups && this.reduced == reduced
      ensures allCols == [] && colsToReduce == []
    {
      this.schema := schema;
      this.source := source;
      this.unmodifiedCols := unmodifiedCols;
      this.lookups := lookups;
      this.reduced := reduced;
      allCols := [];
      colsToReduce := [];
    }

    /** Reads the column names and splits them into copied and reducible columns. */
    method GetCols()
      modifies this`allCols, this`colsToReduce
      ensures allCols == Names(schema)
      ensures colsToReduce == ReducibleCols(allCols, unmodifiedCols)
    {
      allCols := Names(schema);
      colsToReduce := ReducibleCols(allCols, unmodifiedCols);
    }

    /**
     * Creates one lookup table per reducible column, `IF NOT EXISTS`: a table
     * already present keeps its rows. Fails, creating nothing, when there is no
     * column to reduce or a reducible column has no declared type.
     */
    method CreateMapperTable() returns (r: Outcome<Error>)
      modifies this`lookups
      ensures r == CheckMapperColumns(schema, colsToReduce)
      ensures r.Fail? ==> lookups == old(lookups)
      ensures r.Pass? ==> lookups == CreateLookupTables(old(lookups), schema, colsToReduce)
    {
      r := CheckMapperColumns(schema, colsToReduce);
      if r.Fail? {
        return;
      }
      var i := 0;
      while i < |colsToReduce|
        invariant 0 <= i <= |colsToReduce|
        invariant lookups == CreateLookupTables(old(lookups), schema, colsToReduce[..i])
      {
        var col := colsToReduce[i];
        var tableName := LookupName(col);
        if tableName !in lookups {
          lookups := lookups[tableName := LookupTable(DeclaredType(schema, col), [])];
        }
        assert colsToReduce[..i + 1][..i] == colsToReduce[..i];
        i := i + 1;
      }
      assert colsToReduce[..i] == colsToReduce;
    }

    /**
     * Inserts each distinct source value of `colName` into its lookup table,
     * one row per value, each getting the next id.
     */
    method FillMapperTable(colName: string) returns (r: Outcome<Error>)
      modifies this`lookups
      ensures colName !in Names(schema) ==> r == Fail(NoSuchColumn(colName)) && lookups == old(lookups)
      ensures colName in Names(schema) && LookupName(colName) !in old(lookups) ==>
                r == Fail(NoSuchTable(LookupName(colName))) && lookups == old(lookups)
      ensures colName in Names(schema) && LookupName(colName) in old(lookups) ==>
                r == Pass && lookups == FillLookup(old(lookups), source, colName)
    {
      if colName !in Names(schema) {
        return Fail(NoSuchColumn(colName));
      }
      var rows := Distinct(ColumnValues(source, colName));
      var tableName := LookupName(colName);
      if tableName !in lookups {
        return Fail(NoSuchTable(tableName));
      }
      ghost var table := lookups[tableName];
      assert table.(values := table.values + rows[..0]) == table;
      assert lookups == old(lookups)[tableName := table];
      var i := 0;
      while i < |rows|
        invariant 0 <= i <= |rows|
        invariant lookups == old(lookups)[tableName := table.(values := table.values + rows[..i])]
      {
        var values := lookups[tableName].values + [rows[i]];
        assert rows[..i + 1] == rows[..i] + [rows[i]];
        assert values == table.values + rows[..i + 1];
        lookups := lookups[tableName := lookups[tableName].(values := values)];
        i := i + 1;
      }
      assert rows[..i] == rows;
      r := Pass;
    }

    /** `fillMapperTable` for every reducible column in turn; every lookup table exists by then. */
    method FillMapperTables()
      requires forall c :: c in colsToReduce ==> c in Names(schema) && LookupName(c) in lookups
      modifies this`lookups
      ensures lookups == FillLookups(old(lookups), source, colsToReduce)
    {
      var i := 0;
      while i < |colsToReduce|
        invariant 0 <= i <= |colsToReduce|
        invariant lookups == FillLookups(old(lookups), source, colsToReduce[..i])
      {
        var col := colsToReduce[i];
        var r := FillMapperTable(col);
        assert r == Pass;
        assert colsToReduce[..i + 1][..i] == colsToReduce[..i];
        i := i + 1;
      }
      assert colsToReduce[..i] == colsToReduce;
    }

    /**
     * Creates `oa_trf_src_red` with the source columns listed in `allCols`, in
     * source order and with their declared types.
     */
    method CreateReducerTable() returns (r: Outcome<Error>)
      modifies this`reduced
      ensures ReducedSchema(schema, allCols) == [] ==> r == Fail(EmptyColumnList) && reduced == old(reduced)
      ensures ReducedSchema(schema, allCols) != [] && old(reduced).Some? ==>
                r == Fail(TableExists(ReducedTableName)) && reduced == old(reduced)
      ensures ReducedSchema(schema, allCols) != [] && old(reduced).None? ==>
                r == Pass && reduced == Some(ReducedTable(ReducedSchema(schema, allCols), []))
    {
      var columns := ReducedSchema(schema, allCols);
      if columns == [] {
        return Fail(EmptyColumnList);
      }
      if reduced.Some? {
        return Fail(TableExists(ReducedTableName));
      }
      reduced := Some(ReducedTable(columns, []));
      r := Pass;
    }

    /**
     * One transaction: every row of the batch is rewritten and inserted in
     * order, then COMMIT; when the commit fails the batch is rolled back.
     */
    method InsertBatch(rows: seq<Row>, commitOk: bool) returns (committed: bool)
      modifies this`reduced
      ensures committed == commitOk
      ensures reduced == if commitOk
                         then Appended(old(reduced), RewriteRows(rows, allCols, unmodifiedCols, lookups))
                         else old(reduced)
    {
      var before := reduced;
      AppendedNothing(before);
      var i := 0;
      while i < |rows|
        invariant 0 <= i <= |rows|
        invariant reduced == Appended(before, RewriteRows(rows[..i], allCols, unmodifiedCols, lookups))
      {
        var values := RewriteRow(rows[i], allCols, unmodifiedCols, lookups);
        ghost var prev := reduced;
        if values.Some? && reduced.Some? {
          reduced := Some(reduced.value.(rows := reduced.value.rows + [values.value]));
        }
        AppendedNothing(prev);
        assert reduced == Appended(prev, Emitted(rows[i], allCols, unmodifiedCols, lookups));
        assert rows[..i + 1] == rows[..i] + [rows[i]];
        RewriteRowsSnoc(rows[..i], rows[i], allCols, unmodifiedCols, lookups);
        AppendedTwice(before, RewriteRows(rows[..i], allCols, unmodifiedCols, lookups),
                      Emitted(rows[i], allCols, unmodifiedCols, lookups));
        i := i + 1;
      }
      assert rows[..i] == rows;
      if commitOk {
        committed := true;
      } else {
        reduced := before;
        committed := false;
      }
    }

    /**
     * One pass of the cursor loop: reads the page at `offset` and, when it is
     * not empty, inserts it as batch number `offset / BatchSize` and commits it.
     */
    method NextBatch(offset: nat, commitOk: bool, ghost base: Option<ReducedTable>) returns (read: bool, committed: bool)
      requires reduced == Appended(base, RewriteRows(source[..Min(offset, |source|)], allCols, unmodifiedCols, lookups))
      modifies this`reduced
      ensures read <==> offset < |source|
      ensures read ==> BatchesFrom(source, offset, BatchSize)
                       == [Page(source, offset, BatchSize)] + BatchesFrom(source, offset + BatchSize, BatchSize)
      ensures committed <==> read && commitOk
      ensures committed ==> reduced == Appended(base, RewriteRows(source[..Min(offset + BatchSize, |source|)],
                                                                allCols, unmodifiedCols, lookups))
      ensures !committed ==> reduced == old(reduced)
    {
      var rows := Page(source, offset, BatchSize);
      if |rows| == 0 {
        return false, false;
      }
      read := true;
      CursorStep(source, offset, BatchSize);
      committed := InsertBatch(rows, commitOk);
      if committed {
        PageAfterPrefix(source, offset, BatchSize);
        RewriteRowsAppend(source[..offset], rows, allCols, unmodifiedCols, lookups);
        AppendedTwice(base, RewriteRows(source[..offset], allCols, unmodifiedCols, lookups),
                      RewriteRows(rows, allCols, unmodifiedCols, lookups));
      }
    }

    /**
     * Reads the source in batches of `BatchSize` rows at offsets 0, B, 2B, ...
     * and inserts each, stopping at the first empty batch or at the first batch
     * whose COMMIT fails (`commitOk(k)` says whether batch number k commits).
     * A failed batch k leaves the rows before offset k * B in the table.
     */
    method FillReducedTable(commitOk: nat -> bool) returns (r: Outcome<Error>)
      modifies this`reduced
      ensures r.Pass? ==>
                && CommitsBefore(commitOk, |Batches(source, BatchSize)|)
                && reduced == Appended(old(reduced), RewriteRows(source, allCols, unmodifiedCols, lookups))
      ensures r.Fail? ==>
                && r.error.CommitFailed?
                && r.error.batch < |Batches(source, BatchSize)|
                && r.error.batch * BatchSize < |source|
                && !commitOk(r.error.batch)
                && CommitsBefore(commitOk, r.error.batch)
                && reduced == Appended(old(reduced), RewriteRows(source[..r.error.batch * BatchSize],
                                                                 allCols, unmodifiedCols, lookups))
    {
      var offset: nat := 0;
      var k: nat := 0;
      ghost var base := reduced;
      AppendedNothing(base);
      while true
        invariant offset == k * BatchSize
        invariant |Batches(source, BatchSize)| == k + |BatchesFrom(source, offset, BatchSize)|
        invariant CommitsBefore(commitOk, k)
        invariant reduced == Appended(base, RewriteRows(source[..Min(offset, |source|)], allCols, unmodifiedCols, lookups))
        decreases |BatchesFrom(source, offset, BatchSize)|
      {
        var read, ok := NextBatch(offset, commitOk(k), base);
        if !read {
          break;
        }
        if !ok {
          return Fail(CommitFailed(k));
        }
        CommitsNext(commitOk, k);
        offset := offset + BatchSize;
        k := k + 1;
      }
      assert source[..Min(offset, |source|)] == source;
      r := Pass;
    }

    /** The state a full run leaves: every lookup filled from its column, every source row encoded. */
    ghost predicate Completed()
      reads this
    {
      CompletedState(schema, source, unmodifiedCols, allCols, colsToReduce, lookups, reduced)
    }

    /**
     * The stages in order: classify the columns, create the lookup tables, fill
     * each, create the reduced table, fill it. The first failing stage ends the run.
     */
    method Run(commitOk: nat -> bool) returns (r: Outcome<Error>)
      modifies this
      ensures ReducibleCols(Names(schema), unmodifiedCols) == [] ==>
                r == Fail(NoColumnsToReduce) && lookups == old(lookups) && reduced == old(reduced)
      ensures FreshStore(schema, unmodifiedCols, old(lookups)) && old(reduced).None?
              && CommitsBefore(commitOk, |Batches(source, BatchSize)|)
              ==> && r == Pass && Completed()
                  && lookups == FillLookups(CreateLookupTables(old(lookups), schema, colsToReduce), source, colsToReduce)
    {
      ghost var before := lookups;
      ghost var freshStore := FreshStore(schema, unmodifiedCols, before) && reduced.None?
                              && CommitsBefore(commitOk, |Batches(source, BatchSize)|);
      GetCols();
      r := BuildLookups();
      if r.Fail? {
        assert !freshStore;
        return;
      }
      ghost var filled := lookups;
      if freshStore {
        FreshReducedSchema(schema, unmodifiedCols);
      }
      r := BuildReducedTable(commitOk);
      assert lookups == filled;
      if freshStore {
        FreshRunCompletes(schema, source, unmodifiedCols, before, allCols, colsToReduce, lookups, reduced);
        assert Completed();
      }
    }

    /** `createMapperTable` then `fillMapperTable` for every reducible column: the lookup stage of a run. */
    method BuildLookups() returns (r: Outcome<Error>)
      requires allCols == Names(schema) && colsToReduce == ReducibleCols(allCols, unmodifiedCols)
      modifies this`lookups
      ensures r == CheckMapperColumns(schema, colsToReduce)
      ensures r.Fail? ==> lookups == old(lookups)
      ensures r.Pass? ==> lookups == FillLookups(CreateLookupTables(old(lookups), schema, colsToReduce), source, colsToReduce)
    {
      r := CreateMapperTable();
      if r.Fail? {
        return;
      }
      ReducibleColsMembers(allCols, unmodifiedCols);
      FillMapperTables();
    }

    /** `createReducerTable` then `fillReducedTable`, the last two stages of a run. */
    method BuildReducedTable(commitOk: nat -> bool) returns (r: Outcome<Error>)
      modifies this`reduced
      ensures ReducedSchema(schema, allCols) == [] ==> r == Fail(EmptyColumnList) && reduced == old(reduced)
      ensures ReducedSchema(schema, allCols) != [] && old(reduced).Some? ==>
                r == Fail(TableExists(ReducedTableName)) && reduced == old(reduced)
      ensures ReducedSchema(schema, allCols) != [] && old(reduced).None? && r.Fail? ==>
                && r.error.CommitFailed?
                && r.error.batch * BatchSize < |source|
                && !commitOk(r.error.batch)
                && CommitsBefore(commitOk, r.error.batch)
                && reduced == Appended(Some(ReducedTable(ReducedSchema(schema, allCols), [])),
                                       RewriteRows(source[..r.error.batch * BatchSize], allCols, unmodifiedCols, lookups))
      ensures ReducedSchema(schema, allCols) != [] && old(reduced).None? && r.Pass? ==>
                && CommitsBefore(commitOk, |Batches(source, BatchSize)|)
                && reduced == Appended(Some(ReducedTable(ReducedSchema(schema, allCols), [])),
                                       RewriteRows(source, allCols, unmodifiedCols, lookups))
      ensures ReducedSchema(schema, allCols) != [] && old(reduced).None?
              && CommitsBefore(commitOk, |Batches(source, BatchSize)|) ==>
                r == Pass
                && reduced == Appended(Some(ReducedTable(ReducedSchema(schema, allCols), [])),
                                       RewriteRows(source, allCols, unmodifiedCols, lookups))
    {
      r := CreateReducerTable();
      if r.Fail? {
        return;
      }
      r := FillReducedTable(commitOk);
    }
  }

  /**
   * The conditions under which a run succeeds: distinct column names, a declared
   * type for every reducible column, and no lookup table left by an earlier run.
   */
  ghost predicate FreshStore(schema: seq<Column>, unmodified: seq<string>, lookups: map<string, LookupTable>)
  {
    var cols := ReducibleCols(Names(schema), unmodified);
    && NoDuplicates(Names(schema))
    && CheckMapperColumns(schema, cols) == Pass
    && forall c :: c in cols ==> LookupName(c) !in lookups
  }

  /** With a column to reduce, the reduced table gets every source column, and there is at least one. */
  lemma FreshReducedSchema(schema: seq<Column>, unmodified: seq<string>)
    requires CheckMapperColumns(schema, ReducibleCols(Names(schema), unmodified)) == Pass
    ensures ReducedSchema(schema, Names(schema)) == schema != []
  {
    ReducibleColsMembers(Names(schema), unmodified);
    ReducedSchemaKeepsEveryColumn(schema, Names(schema));
  }

  /**
   * Every lookup filled from its column with the column's declared type, and a
   * reduced table with the source's columns holding every source row's
   * rewrite, in order, which decodes row by row back to the source.
   */
  ghost predicate CompletedState(schema: seq<Column>, source: seq<Row>, unmodified: seq<string>,
                                 allCols: seq<string>, cols: seq<string>,
                                 lookups: map<string, LookupTable>, reduced: Option<ReducedTable>)
  {
    && allCols == Names(schema)
    && cols == ReducibleCols(allCols, unmodified)
    && FilledFrom(lookups, source, cols)
    && (forall c :: c in cols ==> lookups[LookupName(c)].valueType == DeclaredType(schema, c))
    && reduced.Some?
    && reduced.value.columns == schema
    && reduced.value.rows == RewriteRows(source, allCols, unmodified, lookups)
    && |reduced.value.rows| == |source|
    && forall i :: 0 <= i < |source| ==>
         DecodeRow(reduced.value.rows[i], allCols, unmodified, lookups) == Some(Project(source[i], allCols))
  }

  /**
   * The stages composed on a fresh store: the tables created and filled, and
   * every source row appended to a new reduced table, give a completed state.
   */
  lemma FreshRunCompletes(schema: seq<Column>, source: seq<Row>, unmodified: seq<string>,
                          before: map<string, LookupTable>, allCols: seq<string>, cols: seq<string>,
                          lookups: map<string, LookupTable>, reduced: Option<ReducedTable>)
    requires FreshStore(schema, unmodified, before)
    requires allCols == Names(schema) && cols == ReducibleCols(allCols, unmodified)
    requires lookups == FillLookups(CreateLookupTables(before, schema, cols), source, cols)
    requires reduced == Appended(Some(ReducedTable(schema, [])), RewriteRows(source, allCols, unmodified, lookups))
    ensures CompletedState(schema, source, unmodified, allCols, cols, lookups, reduced)
  {
    ReducibleColsNoDuplicates(allCols, unmodified);
    FreshLookupsFilled(before, schema, source, cols);
    FilledLookupsResolveEveryRow(source, allCols, unmodified, lookups);
    RowsRoundTrip(source, allCols, unmodified, lookups);
  }

  /**
   * Rows as `SELECT *` returns them hold exactly the schema's columns; after a
   * completed run each reduced row then decodes to its source row itself.
   */
  lemma CompletedRestoresRows(schema: seq<Column>, source: seq<Row>, unmodified: seq<string>,
                              allCols: seq<string>, cols: seq<string>,
                              lookups: map<string, LookupTable>, reduced: Option<ReducedTable>)
    requires CompletedState(schema, source, unmodified, allCols, cols, lookups, reduced)
    requires forall i :: 0 <= i < |source| ==> source[i].Keys == set c | c in Names(schema)
    ensures forall i :: 0 <= i < |source| ==>
              DecodeRow(reduced.value.rows[i], allCols, unmodified, lookups) == Some(source[i])
  {
    forall i | 0 <= i < |source|
      ensures DecodeRow(reduced.value.rows[i], allCols, unmodified, lookups) == Some(source[i])
    {
      ProjectWholeRow(source[i], allCols);
    }
  }
}

=== FILE: sql.dfy ===
/**
 * An in-memory stand-in for the SQLite store that the table reducer talks to.
 *
 * A table's rows are a sequence (rowid order), a row read with `SELECT *` is a
 * map from column name to value, and the few queries the reducer issues
 * (`PRAGMA table_info`, `LIMIT/OFFSET`, `SELECT DISTINCT`, and the
 * `WHERE champ = ?` lookup read with `db.get`) are functions over them.
 */
module Sql {

  datatype Option<+T> = None | Some(value: T)

  datatype Outcome<+E> = Pass | Fail(error: E)

  /** A SQLite value. REAL and BLOB values are carried opaquely in `Other`. */
  datatype Value = Null | Int(i: int) | Text(s: string) | Other(repr: string)

  /** A row as `SELECT *` hands it to the callback: column name to value. */
  type Row = map<string, Value>

  /** One row of `PRAGMA table_info`: the column's name and its declared type ("" when none). */
  datatype Column = Column(name: string, declType: string)

  /** Reading a column the row object lacks gives `undefined`, which binds as NULL. */
  function Cell(row: Row, col: string): (v: Value)
    ensures col in row ==> v == row[col]
    ensures v != Null ==> col in row
  {
    if col in row then row[col] else Null
  }

  /** The column names of a schema, in declaration order (`rows.map(row => row.name)`). */
  function Names(schema: seq<Column>): (names: seq<string>)
    ensures |names| == |schema|
    ensures forall i :: 0 <= i < |schema| ==> names[i] == schema[i].name
  {
    if schema == [] then [] else [schema[0].name] + Names(schema[1..])
  }

  predicate NoDuplicates<T(==)>(s: seq<T>)
  {
    forall i, j :: 0 <= i < j < |s| ==> s[i] != s[j]
  }

  function Min(a: int, b: int): int
  {
    if a <= b then a else b
  }

  /**
   * `SELECT * ... LIMIT limit OFFSET offset` over rows in rowid order: the rows
   * from position `offset` on, at most `limit` of them, none past the end.
   */
  function Page<T>(s: seq<T>, offset: nat, limit: nat): (p: seq<T>)
    ensures |p| == if offset >= |s| then 0 else Min(limit, |s| - offset)
    ensures forall i :: 0 <= i < |p| ==> p[i] == s[offset + i]
  {
    if offset >= |s| then [] else s[offset..offset + Min(limit, |s| - offset)]
  }

  /** `SELECT col FROM source`: the column's value in every row, in row order. */
  function ColumnValues(rows: seq<Row>, col: string): (vs: seq<Value>)
    ensures |vs| == |rows|
    ensures forall i :: 0 <= i < |rows| ==> vs[i] == Cell(rows[i], col)
  {
    if rows == [] then [] else [Cell(rows[0], col)] + ColumnValues(rows[1..], col)
  }

  /**
   * `SELECT DISTINCT`: every value once, in order of first appearance. NULL is
   * kept like any other value (DISTINCT treats all NULLs as one).
   */
  function Distinct(s: seq<Value>): (d: seq<Value>)
    ensures NoDuplicates(d)
    ensures forall v :: v in d <==> v in s
    ensures |d| <= |s|
  {
    if s == [] then []
    else
      var d' := Distinct(s[..|s| - 1]);
      assert forall v :: v in s <==> v in s[..|s| - 1] || v == s[|s| - 1];
      if s[|s| - 1] in d' then d' else d' + [s[|s| - 1]]
  }

  /**
   * `SELECT id FROM <lookup> WHERE champ = ?` read with `db.get` over a lookup
   * table whose row at index i has id i + 1: the id of the first row, in id
   * order, whose value is SQL-equal to `v`. Under SQL `=`, NULL equals nothing,
   * so a NULL value never resolves.
   */
  function Resolve(values: seq<Value>, v: Value): (id: Option<nat>)
    ensures id.Some? <==> v != Null && v in values
    ensures id.Some? ==> 1 <= id.value <= |values| && values[id.value - 1] == v
    ensures id.Some? ==> forall j :: 0 <= j < id.value - 1 ==> values[j] != v
  {
    if v == Null || values == [] then None
    else if values[0] == v then Some(1)
    else
      match Resolve(values[1..], v)
      case None => None
      case Some(k) => Some(k + 1)
  }
}
